=== FILE: README.md ===
# Slideshow navigator and credits crawl, modelled in Dafny

This project models the state machine of `script.js`, a presentation page.
The page shows one screen (`#screen-i`) at a time. The user moves with the
prev/next buttons and the arrow keys. Screen 8 holds a free-text "exit idea"
form. On screen 10, the last screen, a credits crawl replaces the references
for the length of an animation and then puts them back.

The page is abstracted to one immutable record, `Deck.State`. It holds:

- the current index and the set of displayed screens;
- the disabled flags of the two buttons and the bar's progress fraction;
- the frame's `refs-active` class;
- the content of screen 10: the resting references, or the crawl box;
- the `data-crawl-started` flag and `originalRefsHtml`;
- whether the restore timer's handle is held;
- a multiset of pending timer callbacks;
- the exit input's text and the confirmation message.

`Deck.Page` is the fixed shape of the page. It gives the number of `.panel`
elements and the indices whose `#screen-i` exists. It also says which optional
widgets exist: the bar, the prev and next buttons, the exit input and the
message element.

Every script function is a pure transition on this record. The modules are:

- `Text`: `trim` and the confirmation message.
- `Navigation`: clamping, the progress fraction and the key dispatcher.
- `Crawl`: `startCrawl`, `cancelRestoreCrawl`, `restoreRefs` and the chrome-hide callback.
- `Controller`: `show`, `goNext`/`goPrev`, `saveExit`, the event handlers (including the user editing the exit input) and the timer service.
- `Session`: the loaded and booted page, the invariant that every reachable state satisfies, and the crawl properties built on it.
- `Scenarios`: walk-throughs on an eleven-screen deck.

Timers are explicit. `setTimeout` adds a callback to `pending`, and
`clearTimeout` removes it. `Controller.Fire` runs one pending callback.
Callbacks may fire in any order, because their durations are not modelled.

Two behaviours of the code differ from what a quick reading suggests, and the
model follows the code:

- `show` on a missing panel is not a pure no-op. The code first clears
  `refs-active`, hides every panel and cancels the crawl, and only then returns
  (script.js:29-44). `Controller.Show` does the same.
- The exit input's own Enter handler schedules `goNext` even when the input is
  blank (script.js:102-107). With a non-blank input, it clears the input before
  the document handler runs. So the document handler's "save, then next" branch
  does not fire for that key press (`Session.EnterInExitInput`). That lemma
  assumes the `#savedMessage` element exists. Without it, `saveExit` leaves the
  input untouched. The document handler then still sees a non-blank input on
  screen 8 and moves to screen 9 at once, and the deferred `goNext` later moves
  one screen further.

## Model

| member | source | states |
|---|---|---|
| Text.Trim | script.js:97 | The trimmed text is the slice of the input with only white space outside it and no white space at its ends; it is empty exactly when the input is all white space |
| Text.TrimIsUnique | script.js:97 | Any slice that meets that description equals the trimmed text, so trimming is pinned down independently of how it is computed |
| Text.TrimIdempotent | script.js:97 | Trimming an already trimmed value changes nothing |
| Text.Confirmation | script.js:99 | The confirmation message contains the saved idea verbatim between the fixed head and tail |
| Text.ParseConfirmationRoundTrip | script.js:99 | The idea can be read back from its confirmation message |
| Text.ParseConfirmationSound | script.js:99 | Any message the reader accepts is exactly the confirmation of the idea it extracts |
| Navigation.Clamp | script.js:27 | A request is clamped into [0, screensCount-1]; in-range requests are kept, requests below go to 0, requests above go to the last screen, and an empty deck gives 0 |
| Navigation.ClampIsNearest | script.js:27 | The clamped index is an in-range index closest to the request |
| Navigation.ClampFixesInRange | script.js:27 | An index is in range exactly when clamping leaves it unchanged |
| Navigation.ProgressBounds | script.js:51-54 | On a non-empty deck the progress fraction is positive and at most 1, and it is 1 exactly on the last screen |
| Navigation.Dispatch | script.js:85-92 | ArrowLeft goes back; ArrowRight, or Enter on screen 0, goes forward; Enter on screen 8 with an existing input holding a non-white-space character saves and goes forward; nothing else acts |
| Crawl.ClearRestoreTimer | script.js:153-156 | Cancelling drops the handle and exactly one scheduled restore, and leaves every other callback alone |
| Crawl.RestoreRefs | script.js:167-190 | Screen 10 shows `originalRefsHtml` (or nothing) in a `#refsContent`; the chrome is shown again; the crawl flag, the box and the handle are cleared; no other state changes; with no screen 10 nothing happens |
| Crawl.CancelRestoreCrawl | script.js:152-164 | Afterwards no handle is held and no box is on screen; a box that was present is replaced by the restored references; without a box only the timer is cancelled |
| Crawl.StartCrawl | script.js:110-149 | A no-op without screen 10 or while the crawl runs; otherwise it sets the flag, puts up the box showing the `#refsContent` references when there is one and the captured `originalRefsHtml` otherwise, captures them only if nothing is captured yet, schedules one chrome hide and exactly one restore, and changes nothing else |
| Crawl.ChromeTimerFired | script.js:139-141 | The deferred chrome hide adds `refs-active` exactly when screen 10 is the current screen, and changes nothing else |
| Crawl.StartCrawlIdempotent | script.js:114-116 | Starting the crawl twice is the same as starting it once |
| Crawl.RestoreRefsIdempotent | script.js:167-190 | Restoring twice is the same as restoring once |
| Crawl.CancelRestoreCrawlIdempotent | script.js:152-164 | Cancelling twice is the same as cancelling once |
| Crawl.ReplayShowsCapture | script.js:118-136 | Once the references are captured, restoring and starting again plays exactly the captured references and keeps the capture |
| Controller.Show | script.js:25-69 | `refs-active` is always cleared. If the clamped target panel is missing: the index and controls are unchanged, no panel is displayed, and the crawl is cancelled. Otherwise the target is the current and only displayed screen, prev is disabled iff it is 0, next is disabled iff it is the last, and the bar is (idx+1)/max(screensCount,1). A captured original is never replaced. Pending deferred steps are untouched. Unless the crawl ends up running, the capture is unchanged, and so is screen 10 when no crawl box was up. A crawl started from a resting screen 10 with nothing captured captures that markup and puts it up in the box. A crawl restarted over a box that `show` just took down puts the captured markup back up, and a crawl started from a resting screen 10 whose references sit in `#refsContent` (a replay) plays exactly that content. Starting the crawl schedules one chrome hide; otherwise the pending chrome hides are untouched |
| Controller.SaveExit | script.js:95-101 | With a blank input or a missing element, nothing changes. Otherwise the message reads back as the trimmed, non-empty idea and the input is emptied. Nothing else changes |
| Controller.InputKeyDown | script.js:102-107 | Enter in the exit input saves as `saveExit` does and schedules one deferred `goNext` without moving now; other keys change nothing |
| Controller.GoNext | script.js:72 | From a valid index whose next panel exists, `goNext` moves exactly one screen forward; on the last screen it stays (this is what `Scenarios.RightPressesAdvance` iterates) |
| Controller.GoPrev | script.js:73 | From a valid index above 0 whose previous panel exists, `goPrev` moves exactly one screen back; on screen 0 it stays |
| Controller.KeyDown | script.js:85-92 | ArrowRight is `goNext`, ArrowLeft is `goPrev`, Enter on screen 0 is `goNext`, Enter on screen 8 with an existing non-blank input is `saveExit` then `goNext`; any other key press changes nothing (invariant kept: `Session.KeyDownPreservesInv`) |
| Controller.Click | script.js:76-82 | Start goes forward, help changes nothing, a disabled prev or next button does nothing, and end-game lands on screen 10 when the deck has one. An enabled next (prev) button on a valid index whose neighbouring panel exists moves exactly one screen forward (back) (invariant kept: `Session.ClickPreservesInv`) |
| Controller.TypeInto | script.js:12 | Editing the exit input sets its text when the input exists and changes nothing else |
| Controller.Step | script.js:72-107 | One event never changes the page's shape; editing is `TypeInto`, and a timer that is not pending is ignored (invariant kept: `Session.StepPreservesInv`) |
| Controller.Run | script.js:72-107 | A sequence of events never changes the page's shape, and the empty sequence changes nothing (invariant kept: `Session.RunPreservesInv`, `Session.SessionInv`) |
| Controller.Fire | script.js:139-148 | A callback that is not pending (cancelled or already run) has no effect |
| Session.Loaded | script.js:1-17 | The page as loaded (screen 0 current, screen 10 holding its markup, `originalRefsHtml` and the handle null, no crawl flag, nothing scheduled) satisfies the session invariant |
| Session.Boot | script.js:204-205 | After the initial `show(0)` the invariant holds, screen 0 is current (shown with synced controls if it exists), screen 10 still holds the references the page was loaded with, and no crawl, capture or timer exists |
| Session.ShowCrawlIff | script.js:63-68 | From an invariant state, after `show` the crawl runs exactly when the clamped target exists and is both the last screen and screen 10 |
| Session.ShowPreservesInv | script.js:25-69 | `show` preserves the invariant: index in range, only the current screen displayed with synced controls, chrome hidden only on screen 10, crawl flag ⇔ box ⇔ handle, and exactly the held restore scheduled |
| Session.KeyDownPreservesInv | script.js:85-92 | The document key handler preserves the invariant |
| Session.InputKeyDownPreservesInv | script.js:102-107 | The exit input's key handler preserves the invariant |
| Session.ClickPreservesInv | script.js:76-82 | Every button click preserves the invariant |
| Session.FirePreservesInv | script.js:139-148 | Each timer callback (chrome hide, restore, deferred next) preserves the invariant |
| Session.StepPreservesInv | script.js:72-107 | Any single event preserves the invariant |
| Session.RunPreservesInv | script.js:72-107 | Any sequence of events preserves the invariant |
| Session.SessionInv | script.js:204-205 | Every state reached from the booted page (after `show(0)`) satisfies the invariant |
| Session.AtMostOneRestore | script.js:146-148 | Throughout a session at most one restore is scheduled, and one is scheduled exactly while the crawl box is on screen |
| Session.LeavingCrawlRestores | script.js:36-37 | Navigating away from screen 10 mid-crawl restores the references at once and leaves no restore scheduled |
| Session.StaleRestoreIsHarmless | script.js:186-189 | When the crawl is not running, a restore callback cannot fire, so there is never a double restore |
| Session.CrawlIsReplayable | script.js:183-184 | After a restore, showing screen 10 of an eleven-screen deck starts the crawl again with the box up, and the replay plays exactly the captured references |
| Session.StepKeepsCapture | script.js:120 | No event replaces a non-empty `originalRefsHtml` |
| Session.RunKeepsCapture | script.js:120 | Once non-empty, `originalRefsHtml` stays the same for the rest of the session |
| Session.EnterInExitInput | script.js:88-107 | Enter typed in the exit input on screen 8 saves the idea and clears the input; the document handler then does nothing, so the screen changes only when the deferred `goNext` fires |
| Scenarios.BootShowsFirstScreen | script.js:204-205 | Start-up on the eleven-screen deck shows screen 0 with no crawl |
| Scenarios.RightPressesAdvance | script.js:72-86 | Each ArrowRight moves one screen forward, and the crawl runs exactly once screen 10 is reached |
| Scenarios.RightPressesPlayRefs | script.js:25-69 | While ArrowRight presses stay below screen 10, screen 10 and the (empty) capture are untouched; the press that reaches screen 10 captures the resting references and puts exactly them up in the crawl box |
| Scenarios.TenRightPresses | script.js:110-133 | From boot, ten ArrowRight presses reach screen 10 with the crawl running, the loaded references captured and shown in the crawl box |
| Scenarios.LeftFromCrawl | script.js:36-37 | ArrowLeft on screen 10 with the crawl running lands on screen 9, takes the box down, schedules no restore and puts the captured references back, wrapped in `#refsContent` |
| Scenarios.TenForwardOneBack | script.js:72-73 | Ten ArrowRight presses reach screen 10, start the crawl and put the loaded references in the box; ArrowLeft returns to screen 9 with exactly those references restored (wrapped) and no restore scheduled |
| Scenarios.NextButtonFromBoot | script.js:77 | A click on the enabled next button of a booted deck, run as an event, shows screen 1 and keeps the invariant |
| Scenarios.EndGameFromBoot | script.js:82 | A click on the end-game button of a booted deck, run as an event, jumps to screen 10, starts the crawl with the loaded references captured and in the box, and schedules the chrome hide |
| Scenarios.TypeIdeaThenEnter | script.js:86-101 | On screen 8 of a booted session, typing a non-blank idea and an Enter that reaches only the document handler (focus outside the input) saves the trimmed idea, empties the input and moves to screen 9 at once |
| Scenarios.TypeEnterThenWait | script.js:102-107 | On screen 8 of a booted session, typing a non-blank idea and pressing Enter in the input (input handler, then document handler) saves the idea and empties the input but stays on screen 8 with a deferred step pending; when it fires, screen 9 shows with the idea still saved |
| Scenarios.DeferredNextMovesOn | script.js:105 | A pending deferred step on screen 8 moves to screen 9 and leaves the exit form as it was |
| Scenarios.OutOfRangeRequestsClamp | script.js:27 | `show(-5)` lands on screen 0, and `show(999)` lands on screen 10 and starts the crawl |

## Left out

- Fullscreen (script.js:207-235): these are calls into the host environment with no logic of their own.
- The accessibility announcement and the help dialog (script.js:79-81, script.js:192-202): these are UI side effects only. The help button is modelled as a click with no effect.
- Focusing the exit input on screen 8 (script.js:57): focus does not affect any modelled state.
- The `console.warn` on a missing panel (script.js:42): this is logging only.
- DOM details: style assignments, element creation, and `innerHTML`/`outerHTML` parsing. Screen-10 content is an opaque token. The difference between capturing `#refsContent`'s outer markup and the screen's inner markup is not modelled. Neither is the nesting `restoreRefs` produces.
- Timer durations (220000 + 300 ms, 200 ms, 320 ms): pending callbacks may fire in any order. So the model admits orders real time rules out, such as the chrome hide running after the restore. For this reason the invariant only claims that `refs-active` implies screen 10 is current, not that the crawl is running.
- The progress bar's floating-point percentage: it is the exact fraction (idx+1)/max(screensCount,1).
- Event bubbling: the exit input's handler and the document's handler are separate events. `Session.EnterInExitInput` composes them in the browser's order for Enter typed in the input.
- The `frame` element is assumed to exist. The script uses it without a null check, so a page without it would throw.
- Start-up assumptions: `Session.Loaded` assumes both buttons start enabled, the bar starts at 0, and no crawl flag is set in the markup. These values matter only while no `show` has succeeded.
- Controller.Fire: its own contract only says that a non-pending callback is ignored. What each callback does is stated by `Crawl.ChromeTimerFired`, `Crawl.RestoreRefs` and `Controller.Show`, and `Session.FirePreservesInv` covers the rest.
- Controller.Click: button existence is not modelled for the start, help and end-game buttons, nor for a missing prev/next button. A click on a button the page lacks acts as if the button were there. This only adds behaviours, and every invariant is proved over them too.

=== FILE: controller.dfy ===
/**
  The screen controller: `show`, the navigation wrappers, the exit-idea form,
  the event handlers, and the timer callbacks, as pure transitions of the
  page state.
 */
module Controller {
  import opened Support
  import opened Text
  import opened Navigation
  import opened Deck
  import opened Crawl

  /** The navigation buttons and the progress bar agree with the current screen. */
  predicate Synced(s: State)
  {
    && (s.page.hasPrev ==> s.prevDisabled == (s.idx == 0))
    && (s.page.hasNext ==> s.nextDisabled == (s.idx == s.page.screensCount - 1))
    && (s.page.hasBar ==> s.progress == ProgressAt(s.idx, s.page.screensCount))
  }

  /**
    `show(n)`: clamp the request, clear `refs-active`, hide every panel, cancel
    the crawl; then, if the target panel exists, display it, update the bar and
    the buttons, and start the crawl when the target is the last screen and
    that screen is screen 10. A missing target panel ends the call early.
   */
  function Show(s: State, n: int): (r: State)
    ensures r.page == s.page
    ensures !r.refsActive
    ensures r.exitInput == s.exitInput && r.savedMessage == s.savedMessage
    ensures Captured(s.originalRefsHtml) ==> r.originalRefsHtml == s.originalRefsHtml
    ensures Clamp(n, s.page.screensCount) !in s.page.panels ==>
              && r.idx == s.idx && r.visible == {}
              && !r.crawlTimeout && !BoxPresent(r)
              && r.prevDisabled == s.prevDisabled && r.nextDisabled == s.nextDisabled
              && r.progress == s.progress
    ensures Clamp(n, s.page.screensCount) in s.page.panels ==>
              && r.idx == Clamp(n, s.page.screensCount)
              && r.visible == {r.idx}
              && Synced(r)
    ensures r.pending[DeferredNext] == s.pending[DeferredNext]
    ensures !BoxPresent(s) && !r.crawlStarted ==> r.screen10 == s.screen10
    ensures !r.crawlStarted ==> r.originalRefsHtml == s.originalRefsHtml
    ensures (r.crawlStarted && !s.crawlStarted && !BoxPresent(s)
             && !Captured(s.originalRefsHtml) && s.screen10.Resting?) ==>
              r.originalRefsHtml == Some(s.screen10.html) && r.screen10 == CrawlBox(s.screen10.html)
    ensures BoxPresent(s) && r.crawlStarted ==> r.screen10 == CrawlBox(CapturedOrEmpty(s.originalRefsHtml))
    ensures (!s.crawlStarted && r.crawlStarted && s.screen10.Resting? && s.screen10.wrapped) ==>
              r.screen10 == CrawlBox(s.screen10.html)
    ensures !r.crawlStarted ==> r.pending[HideChrome] == s.pending[HideChrome]
    ensures r.crawlStarted && (!s.crawlStarted || BoxPresent(s)) ==>
              r.pending[HideChrome] == s.pending[HideChrome] + 1
  {
    var count := s.page.screensCount;
    var target := Clamp(n, count);
    var cancelled := CancelRestoreCrawl(s.(refsActive := false, visible := {}));
    if target !in s.page.panels then cancelled
    else
      var shown := Displayed(cancelled, target);
      var last := count - 1;
      if shown.idx == last && last in s.page.panels && last == CrawlScreen then StartCrawl(shown)
      else shown
  }

  /**
    The displaying half of `show`: the target panel becomes the only visible
    one, and the progress bar and the buttons that exist follow it.
   */
  function Displayed(c: State, target: int): (r: State)
    ensures r.idx == target && r.visible == {target}
    ensures r.page.hasBar ==> r.progress == ProgressAt(target, r.page.screensCount)
    ensures r.page.hasPrev ==> r.prevDisabled == (target == 0)
    ensures r.page.hasNext ==> r.nextDisabled == (target == r.page.screensCount - 1)
    ensures r.(visible := c.visible, idx := c.idx, progress := c.progress,
               prevDisabled := c.prevDisabled, nextDisabled := c.nextDisabled) == c
  {
    var count := c.page.screensCount;
    c.(visible := {target},
       idx := target,
       progress := if c.page.hasBar then ProgressAt(target, count) else c.progress,
       prevDisabled := if c.page.hasPrev then target == 0 else c.prevDisabled,
       nextDisabled := if c.page.hasNext then target == count - 1 else c.nextDisabled)
  }

  /**
    `goNext`: one screen forward from a valid index when that panel exists;
    the last screen stays where it is.
   */
  function GoNext(s: State): (r: State)
    ensures (InRange(s.idx, s.page.screensCount) && s.idx + 1 < s.page.screensCount
             && s.idx + 1 in s.page.panels) ==> r.idx == s.idx + 1
    ensures (s.page.screensCount > 0 && s.idx == s.page.screensCount - 1
             && s.idx in s.page.panels) ==> r.idx == s.idx && r.visible == {s.idx}
  {
    Show(s, s.idx + 1)
  }

  /**
    `goPrev`: one screen back from a valid index when that panel exists; the
    first screen stays where it is.
   */
  function GoPrev(s: State): (r: State)
    ensures (InRange(s.idx, s.page.screensCount) && s.idx > 0
             && s.idx - 1 in s.page.panels) ==> r.idx == s.idx - 1
    ensures s.idx == 0 && 0 in s.page.panels ==> r.idx == 0 && r.visible == {0}
  {
    Show(s, s.idx - 1)
  }

  /**
    `saveExit`: with both the input and the message element present and a
    non-blank input, shows the confirmation for the trimmed idea and empties
    the input; otherwise nothing changes.
   */
  function SaveExit(s: State): (r: State)
    ensures !s.page.hasInput || !s.page.hasSaved || IsBlank(s.exitInput) ==> r == s
    ensures s.page.hasInput && s.page.hasSaved && !IsBlank(s.exitInput) ==>
              && ParseConfirmation(r.savedMessage) == Some(Trim(s.exitInput))
              && Trim(s.exitInput) != ""
              && r.exitInput == ""
    ensures r.(exitInput := s.exitInput, savedMessage := s.savedMessage) == s
  {
    if !s.page.hasInput || !s.page.hasSaved then s
    else
      var idea := Trim(s.exitInput);
      if idea == "" then s
      else
        ParseConfirmationRoundTrip(idea);
        s.(savedMessage := Confirmation(idea), exitInput := "")
  }

  /**
    The document-level `keydown` handler: the arrows navigate, Enter advances
    from the title screen, and Enter on the input screen with a non-blank idea
    saves it and advances; every other key press leaves the page alone.
   */
  function KeyDown(s: State, key: string): (r: State)
    ensures key == "ArrowRight" ==> r == GoNext(s)
    ensures key == "ArrowLeft" ==> r == GoPrev(s)
    ensures key == "Enter" && s.idx == TitleScreen ==> r == GoNext(s)
    ensures key == "Enter" && s.idx == InputScreen && s.page.hasInput && !IsBlank(s.exitInput) ==>
              r == GoNext(SaveExit(s))
    ensures key != "ArrowRight" && key != "ArrowLeft" && key != "Enter" ==> r == s
    ensures (key == "Enter" && s.idx != TitleScreen
             && (s.idx != InputScreen || !s.page.hasInput || IsBlank(s.exitInput))) ==> r == s
  {
    match Dispatch(key, s.idx, s.page.hasInput, s.exitInput)
    case Ignore => s
    case Forward => GoNext(s)
    case Back => GoPrev(s)
    case SaveAndForward => GoNext(SaveExit(s))
  }

  /** The exit input's own `keydown` handler: Enter saves and schedules a deferred `goNext`. */
  function InputKeyDown(s: State, key: string): (r: State)
    ensures !s.page.hasInput || key != "Enter" ==> r == s
    ensures s.page.hasInput && key == "Enter" ==>
              && r.pending == s.pending + multiset{DeferredNext}
              && r.idx == s.idx
              && r.(pending := s.pending) == SaveExit(s)
  {
    if !s.page.hasInput || key != "Enter" then s
    else
      var saved := SaveExit(s);
      saved.(pending := saved.pending + multiset{DeferredNext})
  }

  /** The buttons with click handlers. */
  datatype Button = StartButton | NextButton | PrevButton | HelpButton | EndGameButton

  /**
    A click on `b`. A disabled navigation button receives no click; help only
    raises a dialog; the end-game button jumps to screen 10. Whether the page
    has the button is not consulted: a click on a button the page lacks is
    modelled as if it were there, which can only add behaviours.
   */
  function Click(s: State, b: Button): (r: State)
    ensures b == HelpButton ==> r == s
    ensures b == NextButton && s.page.hasNext && s.nextDisabled ==> r == s
    ensures b == PrevButton && s.page.hasPrev && s.prevDisabled ==> r == s
    ensures b == StartButton ==> r == GoNext(s)
    ensures (b == NextButton && !(s.page.hasNext && s.nextDisabled)
             && InRange(s.idx, s.page.screensCount) && s.idx + 1 < s.page.screensCount
             && s.idx + 1 in s.page.panels) ==> r.idx == s.idx + 1
    ensures (b == PrevButton && !(s.page.hasPrev && s.prevDisabled)
             && InRange(s.idx, s.page.screensCount) && s.idx > 0
             && s.idx - 1 in s.page.panels) ==> r.idx == s.idx - 1
    ensures b == EndGameButton && s.page.screensCount > CrawlScreen && CrawlScreen in s.page.panels ==>
              r.idx == CrawlScreen && r.visible == {CrawlScreen}
  {
    match b
    case StartButton => GoNext(s)
    case NextButton => if s.page.hasNext && s.nextDisabled then s else GoNext(s)
    case PrevButton => if s.page.hasPrev && s.prevDisabled then s else GoPrev(s)
    case HelpButton => s
    case EndGameButton => Show(s, CrawlScreen)
  }

  /** The timer service runs the callback `t` if it is pending; otherwise nothing happens. */
  function Fire(s: State, t: Timer): (r: State)
    ensures t !in s.pending ==> r == s
  {
    if t !in s.pending then s
    else FireDue(s.(pending := s.pending - multiset{t}), t)
  }

  /** Runs the callback `t`, already taken off the queue. */
  function FireDue(due: State, t: Timer): (r: State)
  {
    match t
    case HideChrome => ChromeTimerFired(due)
    case RestoreCrawl => RestoreRefs(due)
    case DeferredNext => GoNext(due)
  }

  /** The user edits the exit input so that it holds `text`; without the input nothing happens. */
  function TypeInto(s: State, text: string): (r: State)
    ensures s.page.hasInput ==> r.exitInput == text
    ensures !s.page.hasInput ==> r == s
    ensures r.(exitInput := s.exitInput) == s
  {
    if s.page.hasInput then s.(exitInput := text) else s
  }

  /** Everything that can happen to the page, one event at a time. */
  datatype Event =
    | KeyPress(key: string)         // reaches the document handler
    | InputKeyPress(key: string)    // reaches the exit input's handler
    | Typed(text: string)           // the exit input's text is edited
    | Press(button: Button)
    | TimerFires(timer: Timer)

  /** Handles one event; the shape of the page never changes. */
  function Step(s: State, e: Event): (r: State)
    ensures r.page == s.page
    ensures e.Typed? ==> r == TypeInto(s, e.text)
    ensures e.TimerFires? && e.timer !in s.pending ==> r == s
  {
    match e
    case KeyPress(k) => KeyDown(s, k)
    case InputKeyPress(k) => InputKeyDown(s, k)
    case Typed(text) => TypeInto(s, text)
    case Press(b) => Click(s, b)
    case TimerFires(t) => Fire(s, t)
  }

  /** The page after handling `events` in order; its shape never changes. */
  function Run(s: State, events: seq<Event>): (r: State)
    ensures r.page == s.page
    ensures events == [] ==> r == s
    decreases |events|
  {
    if events == [] then s else Run(Step(s, events[0]), events[1..])
  }
}

=== FILE: crawl.dfy ===
/**
  The credits-crawl lifecycle on screen 10: start (capture the references
  once, swap in the crawl box, schedule the chrome hide and the restore),
  cancel, and restore.
 */
module Crawl {
  import opened Support
  import opened Deck

  /** `originalRefsHtml` is truthy: neither `null` nor the empty string. */
  predicate Captured(o: Option<Html>)
  {
    o.Some? && o.value != ""
  }

  /** The value of `originalRefsHtml || ''`. */
  function CapturedOrEmpty(o: Option<Html>): (h: Html)
  {
    if Captured(o) then o.value else ""
  }

  /** The markup a capture of screen 10 takes (its `#refsContent` or its whole content). */
  function Snapshot(c: Refs): (h: Html)
  {
    match c
    case Resting(h, _) => h
    case CrawlBox(h) => h
  }

  /** Cancels the timer whose handle `crawlTimeout` holds and drops the handle. */
  function ClearRestoreTimer(s: State): (r: State)
    ensures !r.crawlTimeout
    ensures !s.crawlTimeout ==> r == s
    ensures s.crawlTimeout ==> r.pending[RestoreCrawl] == Max(0, s.pending[RestoreCrawl] as int - 1)
    ensures forall t :: t != RestoreCrawl ==> r.pending[t] == s.pending[t]
    ensures r.(pending := s.pending, crawlTimeout := s.crawlTimeout) == s
  {
    if s.crawlTimeout then s.(pending := s.pending - multiset{RestoreCrawl}, crawlTimeout := false)
    else s
  }

  /**
    `restoreRefs`: screen 10 shows the captured references again (in a fresh
    `#refsContent`), the chrome comes back, the crawl may run again, and no
    restore stays scheduled. Without a screen 10 nothing happens.
   */
  function RestoreRefs(s: State): (r: State)
    ensures CrawlScreen !in s.page.panels ==> r == s
    ensures CrawlScreen in s.page.panels ==>
              && r.screen10 == Resting(CapturedOrEmpty(s.originalRefsHtml), true)
              && !r.refsActive && !r.crawlStarted && !r.crawlTimeout && !BoxPresent(r)
    ensures CrawlScreen in s.page.panels && s.crawlTimeout ==>
              r.pending[RestoreCrawl] == Max(0, s.pending[RestoreCrawl] as int - 1)
    ensures !s.crawlTimeout ==> r.pending == s.pending
    ensures forall t :: t != RestoreCrawl ==> r.pending[t] == s.pending[t]
    ensures r.(screen10 := s.screen10, refsActive := s.refsActive, crawlStarted := s.crawlStarted,
               crawlTimeout := s.crawlTimeout, pending := s.pending) == s
  {
    if CrawlScreen !in s.page.panels then s
    else
      ClearRestoreTimer(s.(screen10 := Resting(CapturedOrEmpty(s.originalRefsHtml), true),
                           refsActive := false,
                           crawlStarted := false))
  }

  /**
    `cancelRestoreCrawl`: the pending restore is cancelled, and if the crawl box
    is on screen it is replaced by the references at once.
   */
  function CancelRestoreCrawl(s: State): (r: State)
    ensures !r.crawlTimeout && !BoxPresent(r)
    ensures BoxPresent(s) ==>
              && r.screen10 == Resting(CapturedOrEmpty(s.originalRefsHtml), true)
              && !r.crawlStarted && !r.refsActive
    ensures !BoxPresent(s) ==> r == ClearRestoreTimer(s)
    ensures s.crawlTimeout ==> r.pending[RestoreCrawl] == Max(0, s.pending[RestoreCrawl] as int - 1)
    ensures !s.crawlTimeout ==> r.pending == s.pending
    ensures forall t :: t != RestoreCrawl ==> r.pending[t] == s.pending[t]
    ensures r.(screen10 := s.screen10, refsActive := s.refsActive, crawlStarted := s.crawlStarted,
               crawlTimeout := s.crawlTimeout, pending := s.pending) == s
  {
    var t := ClearRestoreTimer(s);
    if CrawlScreen !in t.page.panels then t
    else if t.screen10.CrawlBox? then RestoreRefs(t)
    else t
  }

  /**
    `startCrawl`: a no-op without screen 10 or while the crawl runs; otherwise
    it captures the references unless already captured, swaps in the crawl box,
    and schedules the chrome hide and a single restore.
   */
  function StartCrawl(s: State): (r: State)
    ensures CrawlScreen !in s.page.panels || s.crawlStarted ==> r == s
    ensures CrawlScreen in s.page.panels && !s.crawlStarted ==>
              && r.crawlStarted && BoxPresent(r) && r.crawlTimeout
              && r.originalRefsHtml.Some?
              && (Captured(s.originalRefsHtml) ==> r.originalRefsHtml == s.originalRefsHtml)
              && (!Captured(s.originalRefsHtml) ==> r.originalRefsHtml == Some(Snapshot(s.screen10)))
              && (s.screen10.Resting? && s.screen10.wrapped ==> r.screen10 == CrawlBox(s.screen10.html))
              && (!(s.screen10.Resting? && s.screen10.wrapped) ==> r.screen10 == CrawlBox(r.originalRefsHtml.value))
              && r.pending[HideChrome] == s.pending[HideChrome] + 1
              && (s.pending[RestoreCrawl] <= (if s.crawlTimeout then 1 else 0) ==> r.pending[RestoreCrawl] == 1)
              && r.pending[DeferredNext] == s.pending[DeferredNext]
    ensures r.(screen10 := s.screen10, crawlStarted := s.crawlStarted, originalRefsHtml := s.originalRefsHtml,
               crawlTimeout := s.crawlTimeout, pending := s.pending) == s
  {
    if CrawlScreen !in s.page.panels || s.crawlStarted then s
    else ScheduleRestore(PutUpBox(s))
  }

  /**
    Sets the crawl flag, captures the references unless already captured, puts
    up the crawl box, and schedules the chrome hide.
   */
  function PutUpBox(s: State): (r: State)
    ensures r.crawlStarted && r.screen10.CrawlBox? && r.originalRefsHtml.Some?
    ensures Captured(s.originalRefsHtml) ==> r.originalRefsHtml == s.originalRefsHtml
    ensures !Captured(s.originalRefsHtml) ==> r.originalRefsHtml == Some(Snapshot(s.screen10))
    ensures s.screen10.Resting? && s.screen10.wrapped ==> r.screen10 == CrawlBox(s.screen10.html)
    ensures !(s.screen10.Resting? && s.screen10.wrapped) ==> r.screen10 == CrawlBox(r.originalRefsHtml.value)
    ensures r.pending[HideChrome] == s.pending[HideChrome] + 1
    ensures forall t :: t != HideChrome ==> r.pending[t] == s.pending[t]
    ensures r.(screen10 := s.screen10, crawlStarted := s.crawlStarted, originalRefsHtml := s.originalRefsHtml,
               pending := s.pending) == s
  {
    var original := if Captured(s.originalRefsHtml) then s.originalRefsHtml
                    else Some(Snapshot(s.screen10));
    var inner := if s.screen10.Resting? && s.screen10.wrapped then s.screen10.html
                 else original.value;
    s.(crawlStarted := true,
       originalRefsHtml := original,
       screen10 := CrawlBox(inner),
       pending := s.pending + multiset{HideChrome})
  }

  /**
    Cancels any restore the handle holds and schedules a fresh one, so exactly
    one restore is pending when the handle covered every pending restore before.
   */
  function ScheduleRestore(s: State): (r: State)
    ensures r.crawlTimeout
    ensures s.pending[RestoreCrawl] <= (if s.crawlTimeout then 1 else 0) ==> r.pending[RestoreCrawl] == 1
    ensures forall t :: t != RestoreCrawl ==> r.pending[t] == s.pending[t]
    ensures r.(pending := s.pending, crawlTimeout := s.crawlTimeout) == s
  {
    var cleared := ClearRestoreTimer(s);
    cleared.(pending := cleared.pending + multiset{RestoreCrawl}, crawlTimeout := true)
  }

  /** The chrome-hide callback: the frame gets `refs-active` only if screen 10 is showing. */
  function ChromeTimerFired(s: State): (r: State)
    ensures r.refsActive <==> s.refsActive || s.idx == CrawlScreen
    ensures r.(refsActive := s.refsActive) == s
  {
    if s.idx == CrawlScreen then s.(refsActive := true) else s
  }

  /** Starting an already started crawl changes nothing. */
  lemma StartCrawlIdempotent(s: State)
    ensures StartCrawl(StartCrawl(s)) == StartCrawl(s)
  {
  }

  /** Restoring twice leaves the page as restoring once. */
  lemma RestoreRefsIdempotent(s: State)
    ensures RestoreRefs(RestoreRefs(s)) == RestoreRefs(s)
  {
  }

  /** Cancelling twice leaves the page as cancelling once. */
  lemma CancelRestoreCrawlIdempotent(s: State)
    ensures CancelRestoreCrawl(CancelRestoreCrawl(s)) == CancelRestoreCrawl(s)
  {
  }

  /**
    Once the references are captured, a restore followed by a new start plays
    exactly the captured references again and keeps the capture.
   */
  lemma ReplayShowsCapture(s: State)
    requires CrawlScreen in s.page.panels && Captured(s.originalRefsHtml)
    ensures StartCrawl(RestoreRefs(s)).screen10 == CrawlBox(s.originalRefsHtml.value)
    ensures StartCrawl(RestoreRefs(s)).originalRefsHtml == s.originalRefsHtml
    ensures StartCrawl(RestoreRefs(s)).crawlStarted
  {
  }
}

=== FILE: deck.dfy ===
/**
  The page the script runs on, abstracted to one immutable record: which
  screens exist, which optional widgets exist, and every piece of state the
  script reads or writes (its globals and the parts of the page it changes).
 */
module Deck {
  import opened Support
  import opened Navigation

  /** Markup of a piece of the page, treated as an opaque token. */
  type Html = string

  /** The screen that hosts the credits crawl. */
  const CrawlScreen := 10

  /**
    What `#screen-10` currently contains: its resting content (with `wrapped`
    telling whether it sits in a `#refsContent` element) or the `.crawlBox`
    wrapper showing `inner`.
   */
  datatype Refs = Resting(html: Html, wrapped: bool) | CrawlBox(inner: Html)

  /** The callbacks the script hands to `setTimeout`. */
  datatype Timer =
    | HideChrome     // 200 ms after a crawl starts: hide aside and footer if still on screen 10
    | RestoreCrawl   // when the crawl animation ends: put the references back
    | DeferredNext   // 320 ms after Enter in the exit input: go to the next screen

  /**
    The fixed shape of the page: the number of `.panel` elements, the indices
    `i` for which an element `#screen-i` exists, and which optional widgets exist.
   */
  datatype Page = Page(
    screensCount: nat,
    panels: set<int>,
    hasBar: bool,
    hasPrev: bool,
    hasNext: bool,
    hasInput: bool,
    hasSaved: bool)

  /** Everything the script's transitions read or write. */
  datatype State = State(
    page: Page,
    idx: int,                        // the current screen
    visible: set<int>,               // screens currently displayed
    prevDisabled: bool,
    nextDisabled: bool,
    progress: Progress,              // the bar's width as a fraction
    refsActive: bool,                // the frame's `refs-active` class (chrome hidden)
    screen10: Refs,
    crawlStarted: bool,              // `#screen-10`'s `data-crawl-started` flag
    originalRefsHtml: Option<Html>,  // `None` stands for `null`
    crawlTimeout: bool,              // the restore timer's handle is held
    pending: multiset<Timer>,        // callbacks scheduled and not yet run or cancelled
    exitInput: string,
    savedMessage: string)

  /** A `.crawlBox` is on screen 10. */
  predicate BoxPresent(s: State)
  {
    CrawlScreen in s.page.panels && s.screen10.CrawlBox?
  }
}

=== FILE: navigation.dfy ===
/**
  The arithmetic of screen navigation: clamping a requested index into the
  deck, the progress fraction, and the mapping from a key press to an action.
 */
module Navigation {
  import opened Support
  import opened Text

  /** The screen whose Enter key advances from the title. */
  const TitleScreen := 0

  /** The screen holding the free-text exit-idea input. */
  const InputScreen := 8

  /** Clamps a requested index into `[0, count - 1]` (to 0 when the deck is empty). */
  function Clamp(n: int, count: nat): (t: nat)
    ensures count == 0 ==> t == 0
    ensures count > 0 ==> t < count
    ensures 0 <= n < count ==> t == n
    ensures n < 0 ==> t == 0
    ensures count > 0 && n >= count ==> t == count - 1
  {
    Max(0, Min(n, count - 1))
  }

  /** `i` is an index that clamping leaves where it is. */
  predicate InRange(i: int, count: nat)
  {
    0 <= i && (count == 0 ==> i == 0) && (count > 0 ==> i < count)
  }

  /** Distance between two screen indices. */
  function Dist(a: int, b: int): (d: nat)
  {
    if a < b then b - a else a - b
  }

  /** The clamped index is an in-range index closest to the request. */
  lemma ClampIsNearest(n: int, count: nat, j: int)
    requires InRange(j, count)
    ensures InRange(Clamp(n, count), count)
    ensures Dist(Clamp(n, count), n) <= Dist(j, n)
  {
  }

  /** Clamping an index already in range changes nothing. */
  lemma ClampFixesInRange(i: int, count: nat)
    ensures InRange(i, count) <==> Clamp(i, count) == i
  {
  }

  /** Progress through the deck as an exact fraction `done / total`. */
  datatype Progress = Progress(done: int, total: int)

  /** The progress bar's fraction for screen `idx` of `count`: `(idx + 1) / max(count, 1)`. */
  function ProgressAt(idx: int, count: nat): (p: Progress)
  {
    Progress(idx + 1, Max(count, 1))
  }

  /** On a non-empty deck the bar is never empty, and it is full exactly on the last screen. */
  lemma ProgressBounds(idx: int, count: nat)
    requires count > 0 && InRange(idx, count)
    ensures 0 < ProgressAt(idx, count).done <= ProgressAt(idx, count).total
    ensures ProgressAt(idx, count).done == ProgressAt(idx, count).total <==> idx == count - 1
  {
  }

  /** What the document-level key handler does. */
  datatype KeyAction = Ignore | Forward | Back | SaveAndForward

  /**
    The document `keydown` handler as a decision on the key, the current
    screen, whether the exit input exists, and the input's text.
   */
  function Dispatch(key: string, idx: int, hasInput: bool, input: string): (a: KeyAction)
    ensures a == Back <==> key == "ArrowLeft"
    ensures a == Forward <==> key == "ArrowRight" || (key == "Enter" && idx == TitleScreen)
    ensures a == SaveAndForward <==> key == "Enter" && idx == InputScreen && hasInput && !IsBlank(input)
  {
    if key == "ArrowRight" then Forward
    else if key == "ArrowLeft" then Back
    else if key == "Enter" then
      if idx == TitleScreen then Forward
      else if idx == InputScreen && hasInput && Trim(input) != "" then SaveAndForward
      else Ignore
    else Ignore
  }
}

=== FILE: scenarios.dfy ===
/**
  Walk-throughs on the deck the script was written for: eleven screens,
  `#screen-0` to `#screen-10`, with every optional widget present.
 */
module Scenarios {
  import opened Text
  import opened Support
  import opened Deck
  import opened Crawl
  import opened Controller
  import opened Session

  /** Eleven screens, all present, with the bar, both buttons, the input and the message. */
  function ElevenScreens(): (page: Page)
  {
    Page(11, {0, 1, 2, 3, 4, 5, 6, 7, 8, 9, 10}, true, true, true, true, true)
  }

  /** `k` presses of `key` reaching the document handler. */
  function Presses(key: string, k: nat): (events: seq<Event>)
    ensures |events| == k
  {
    if k == 0 then [] else [KeyPress(key)] + Presses(key, k - 1)
  }

  /** The booted eleven-screen deck shows screen 0 with no crawl running. */
  lemma BootShowsFirstScreen(refs: Html, wrapped: bool)
    ensures Boot(ElevenScreens(), refs, wrapped).idx == 0
    ensures Boot(ElevenScreens(), refs, wrapped).visible == {0}
    ensures !Boot(ElevenScreens(), refs, wrapped).crawlStarted
    ensures Inv(Boot(ElevenScreens(), refs, wrapped))
  {
    SessionInv(ElevenScreens(), refs, wrapped, []);
  }

  /**
    Each right-arrow press moves one screen forward, and after at least one
    press the crawl runs exactly when screen 10 is reached.
   */
  lemma {:induction false} RightPressesAdvance(s: State, k: nat)
    requires Inv(s) && s.page == ElevenScreens() && s.idx + k <= 10
    ensures Inv(Run(s, Presses("ArrowRight", k)))
    ensures Run(s, Presses("ArrowRight", k)).page == s.page
    ensures Run(s, Presses("ArrowRight", k)).idx == s.idx + k
    ensures k > 0 ==> (Run(s, Presses("ArrowRight", k)).crawlStarted <==> s.idx + k == CrawlScreen)
    decreases k
  {
    if k > 0 {
      var next := Show(s, s.idx + 1);
      RunRightPress(s, k);
      ShowNextOnEleven(s);
      RightPressesAdvance(next, k - 1);
      assert Run(s, Presses("ArrowRight", k)) == Run(next, Presses("ArrowRight", k - 1));
    }
  }

  /** On the eleven-screen deck, showing the next screen moves there and runs the crawl only on screen 10. */
  lemma ShowNextOnEleven(s: State)
    requires Inv(s) && s.page == ElevenScreens() && s.idx < 10
    ensures Inv(Show(s, s.idx + 1))
    ensures Show(s, s.idx + 1).page == s.page
    ensures Show(s, s.idx + 1).idx == s.idx + 1
    ensures Show(s, s.idx + 1).crawlStarted <==> s.idx + 1 == CrawlScreen
  {
    ShowPreservesInv(s, s.idx + 1);
    ShowCrawlIff(s, s.idx + 1);
  }

  /** The first of `k` right-arrow presses is a `show` of the next screen. */
  lemma RunRightPress(s: State, k: nat)
    requires k > 0
    ensures Run(s, Presses("ArrowRight", k)) == Run(Show(s, s.idx + 1), Presses("ArrowRight", k - 1))
  {
    var events := Presses("ArrowRight", k);
    assert events[0] == KeyPress("ArrowRight") && events[1..] == Presses("ArrowRight", k - 1);
    assert Step(s, KeyPress("ArrowRight")) == Show(s, s.idx + 1);
  }

  /**
    Ten right-arrow presses from the start reach screen 10, start the crawl,
    capture the resting references and put them up in the crawl box.
   */
  lemma TenRightPresses(refs: Html, wrapped: bool)
    ensures var there := Run(Boot(ElevenScreens(), refs, wrapped), Presses("ArrowRight", 10));
            && Inv(there) && there.page == ElevenScreens()
            && there.idx == 10 && there.crawlStarted && BoxPresent(there)
            && there.originalRefsHtml == Some(refs) && there.screen10 == CrawlBox(refs)
  {
    var boot := Boot(ElevenScreens(), refs, wrapped);
    BootShowsFirstScreen(refs, wrapped);
    RightPressesAdvance(boot, 10);
    RightPressesPlayRefs(boot, 10);
  }

  /**
    Ten right-arrow presses from the start reach screen 10 and start the crawl;
    one left-arrow press then returns to screen 9, restores the references the
    page was loaded with (now wrapped in `#refsContent`) at once and leaves no
    restore scheduled.
   */
  lemma TenForwardOneBack(refs: Html, wrapped: bool)
    ensures var there := Run(Boot(ElevenScreens(), refs, wrapped), Presses("ArrowRight", 10));
            && there.idx == 10 && there.crawlStarted && BoxPresent(there)
            && there.originalRefsHtml == Some(refs) && there.screen10 == CrawlBox(refs)
            && var back := KeyDown(there, "ArrowLeft");
               && back.idx == 9 && !back.crawlStarted && !BoxPresent(back)
               && back.pending[RestoreCrawl] == 0
               && back.screen10 == Resting(refs, true)
  {
    TenRightPresses(refs, wrapped);
    LeftFromCrawl(Run(Boot(ElevenScreens(), refs, wrapped), Presses("ArrowRight", 10)), refs);
  }

  /** A left-arrow press on screen 10 of the eleven-screen deck, with the crawl running, restores at once. */
  lemma LeftFromCrawl(s: State, refs: Html)
    requires Inv(s) && s.page == ElevenScreens() && s.idx == CrawlScreen && BoxPresent(s)
    requires s.originalRefsHtml == Some(refs)
    ensures var back := KeyDown(s, "ArrowLeft");
            && back.idx == 9 && !back.crawlStarted && !BoxPresent(back)
            && back.pending[RestoreCrawl] == 0
            && back.screen10 == Resting(refs, true)
  {
    assert KeyDown(s, "ArrowLeft") == Show(s, 9);
    LeavingCrawlRestores(s, 9);
  }

  /**
    Right-arrow presses from a deck whose references were never captured leave
    screen 10 and the capture alone until screen 10 is reached; arriving there
    captures the resting references and puts them up in the crawl box.
   */
  lemma {:induction false} RightPressesPlayRefs(s: State, k: nat)
    requires Inv(s) && s.page == ElevenScreens() && s.idx + k <= CrawlScreen
    requires !s.crawlStarted && s.originalRefsHtml == None && s.screen10.Resting?
    ensures var r := Run(s, Presses("ArrowRight", k));
            && (s.idx + k < CrawlScreen ==> r.screen10 == s.screen10 && r.originalRefsHtml == None)
            && (k > 0 && s.idx + k == CrawlScreen ==>
                  r.originalRefsHtml == Some(s.screen10.html) && r.screen10 == CrawlBox(s.screen10.html))
    decreases k
  {
    if k > 0 {
      var next := Show(s, s.idx + 1);
      RunRightPress(s, k);
      ShowNextOnEleven(s);
      if s.idx + 1 < CrawlScreen {
        RightPressesPlayRefs(next, k - 1);
      }
    }
  }

  /** A click on the enabled next button of the booted deck shows screen 1. */
  lemma NextButtonFromBoot(refs: Html, wrapped: bool)
    ensures var r := Run(Boot(ElevenScreens(), refs, wrapped), [Press(NextButton)]);
            r.idx == 1 && Inv(r)
  {
    var boot := Boot(ElevenScreens(), refs, wrapped);
    RunPreservesInv(boot, [Press(NextButton)]);
    assert Run(boot, [Press(NextButton)]) == Click(boot, NextButton);
  }

  /**
    A click on the end-game button of the booted deck, run as an event, jumps
    to screen 10, starts the crawl with the loaded references in the box and
    schedules the chrome hide.
   */
  lemma EndGameFromBoot(refs: Html, wrapped: bool)
    ensures var r := Run(Boot(ElevenScreens(), refs, wrapped), [Press(EndGameButton)]);
            && r.idx == CrawlScreen && r.crawlStarted && BoxPresent(r) && Inv(r)
            && r.originalRefsHtml == Some(refs) && r.screen10 == CrawlBox(refs)
            && HideChrome in r.pending
  {
    var boot := Boot(ElevenScreens(), refs, wrapped);
    RunPreservesInv(boot, [Press(EndGameButton)]);
    assert Run(boot, [Press(EndGameButton)]) == Show(boot, CrawlScreen);
    ShowCrawlIff(boot, CrawlScreen);
  }

  /** Requests below and above the deck land on its first and last screens. */
  lemma OutOfRangeRequestsClamp(refs: Html, wrapped: bool)
    ensures Show(Boot(ElevenScreens(), refs, wrapped), -5).idx == 0
    ensures Show(Boot(ElevenScreens(), refs, wrapped), 999).idx == 10
    ensures Show(Boot(ElevenScreens(), refs, wrapped), 999).crawlStarted
  {
    var boot := Boot(ElevenScreens(), refs, wrapped);
    BootShowsFirstScreen(refs, wrapped);
    ShowCrawlIff(boot, 999);
  }

  /**
    After eight right-arrow presses the exit-idea screen is showing; typing a
    non-blank idea there and pressing Enter (outside the input) saves the
    trimmed idea, empties the input and moves on to screen 9.
   */
  lemma TypeIdeaThenEnter(refs: Html, wrapped: bool, text: string)
    requires !IsBlank(text)
    ensures var at8 := Run(Boot(ElevenScreens(), refs, wrapped), Presses("ArrowRight", 8));
            && at8.idx == 8
            && var r := KeyDown(TypeInto(at8, text), "Enter");
               && r.idx == 9
               && r.exitInput == ""
               && ParseConfirmation(r.savedMessage) == Some(Trim(text))
  {
    var boot := Boot(ElevenScreens(), refs, wrapped);
    RightPressesAdvance(boot, 8);
    EnterOnInputScreen(Run(boot, Presses("ArrowRight", 8)), text);
  }

  /**
    On the exit-idea screen, a typed non-blank idea and an Enter that reaches
    the input's handler first and then the document's: the idea is saved and
    the input emptied at once, the page stays on screen 8, and screen 9 follows
    when the deferred step fires.
   */
  lemma TypeEnterThenWait(refs: Html, wrapped: bool, text: string)
    requires !IsBlank(text)
    ensures var at8 := Run(Boot(ElevenScreens(), refs, wrapped), Presses("ArrowRight", 8));
            var entered := Run(at8, [Typed(text), InputKeyPress("Enter"), KeyPress("Enter")]);
            && entered.idx == 8
            && DeferredNext in entered.pending
            && var r := Run(entered, [TimerFires(DeferredNext)]);
               && r.idx == 9
               && r.exitInput == ""
               && ParseConfirmation(r.savedMessage) == Some(Trim(text))
  {
    var boot := Boot(ElevenScreens(), refs, wrapped);
    RightPressesAdvance(boot, 8);
    var at8 := Run(boot, Presses("ArrowRight", 8));
    DeferredStepOnInputScreen(at8, text);
  }

  /** The deferred-step half of `TypeEnterThenWait`, from any state on screen 8. */
  lemma DeferredStepOnInputScreen(s: State, text: string)
    requires s.page == ElevenScreens() && s.idx == 8 && !IsBlank(text)
    ensures var entered := Run(s, [Typed(text), InputKeyPress("Enter"), KeyPress("Enter")]);
            && entered.idx == 8
            && DeferredNext in entered.pending
            && var r := Run(entered, [TimerFires(DeferredNext)]);
               && r.idx == 9
               && r.exitInput == ""
               && ParseConfirmation(r.savedMessage) == Some(Trim(text))
  {
    var typed := TypeInto(s, text);
    EnterInExitInput(typed);
    RunTypeAndEnter(s, text);
    DeferredNextMovesOn(KeyDown(InputKeyDown(typed, "Enter"), "Enter"));
  }

  /** The three input events are the typing, then the input's handler, then the document's. */
  lemma RunTypeAndEnter(s: State, text: string)
    ensures Run(s, [Typed(text), InputKeyPress("Enter"), KeyPress("Enter")])
         == KeyDown(InputKeyDown(TypeInto(s, text), "Enter"), "Enter")
  {
    var typed := TypeInto(s, text);
    var events := [Typed(text), InputKeyPress("Enter"), KeyPress("Enter")];
    assert events[1..] == [InputKeyPress("Enter"), KeyPress("Enter")];
    assert Run(s, events) == Run(typed, events[1..]);
    assert Run(typed, events[1..]) == Run(InputKeyDown(typed, "Enter"), [KeyPress("Enter")]);
  }

  /** A pending deferred step on screen 8 of the eleven-screen deck moves on to screen 9 and keeps the form. */
  lemma DeferredNextMovesOn(s: State)
    requires s.page == ElevenScreens() && s.idx == 8 && DeferredNext in s.pending
    ensures var r := Run(s, [TimerFires(DeferredNext)]);
            r.idx == 9 && r.exitInput == s.exitInput && r.savedMessage == s.savedMessage
  {
    var due := s.(pending := s.pending - multiset{DeferredNext});
    assert Run(s, [TimerFires(DeferredNext)]) == GoNext(due);
  }

  /** On screen 8 of the eleven-screen deck, a typed non-blank idea is saved by Enter, which moves on. */
  lemma EnterOnInputScreen(s: State, text: string)
    requires s.page == ElevenScreens() && s.idx == 8 && !IsBlank(text)
    ensures var r := KeyDown(TypeInto(s, text), "Enter");
            && r.idx == 9
            && r.exitInput == ""
            && ParseConfirmation(r.savedMessage) == Some(Trim(text))
  {
    var typed := TypeInto(s, text);
    assert typed.exitInput == text && typed.idx == 8 && typed.page == s.page;
    var saved := SaveExit(typed);
    assert saved.idx == 8 && saved.page == s.page && saved.exitInput == "";
    assert ParseConfirmation(saved.savedMessage) == Some(Trim(text));
    assert KeyDown(typed, "Enter") == GoNext(saved);
  }
}

=== FILE: session.dfy ===
/**
  Invariants of a page session: what holds of every state reachable from the
  booted page, and the navigation and crawl properties built on them.
 */
module Session {
  import opened Support
  import opened Text
  import opened Navigation
  import opened Deck
  import opened Crawl
  import opened Controller

  /**
    The session invariant: the index is in range, at most the current screen
    is displayed (with the controls agreeing when it is), the chrome is hidden
    only on screen 10, the crawl flag, the crawl box and the restore handle go
    together, and exactly the held handle's restore is scheduled.
   */
  predicate Inv(s: State)
  {
    && InRange(s.idx, s.page.screensCount)
    && s.visible <= {s.idx}
    && (s.visible == {s.idx} ==> Synced(s))
    && (s.refsActive ==> s.idx == CrawlScreen)
    && (s.crawlStarted <==> BoxPresent(s))
    && (s.crawlStarted <==> s.crawlTimeout)
    && s.pending[RestoreCrawl] == (if s.crawlTimeout then 1 else 0)
    && (s.crawlStarted ==> s.originalRefsHtml.Some?)
  }

  /**
    The page as loaded, before the script's first `show(0)`: screen 10 holds
    `refs` (inside a `#refsContent` if `wrapped`), nothing is scheduled, and
    nothing has been captured. It already satisfies the invariant.
   */
  function Loaded(page: Page, refs: Html, wrapped: bool): (r: State)
    ensures Inv(r)
    ensures r.page == page && r.idx == 0 && r.screen10 == Resting(refs, wrapped)
    ensures !r.crawlStarted && r.originalRefsHtml == None && r.pending == multiset{}
  {
    State(page, 0, {}, false, false, Progress(0, 1), false, Resting(refs, wrapped),
          false, None, false, multiset{}, "", "")
  }

  /**
    From an invariant state, `show` leaves the crawl running exactly when it
    lands on the last screen and that screen is screen 10.
   */
  lemma ShowCrawlIff(s: State, n: int)
    requires Inv(s)
    ensures var target := Clamp(n, s.page.screensCount);
            Show(s, n).crawlStarted <==>
              target in s.page.panels && target == s.page.screensCount - 1 && target == CrawlScreen
  {
  }

  /** `show` preserves the invariant. */
  lemma ShowPreservesInv(s: State, n: int)
    requires Inv(s)
    ensures Inv(Show(s, n))
  {
    var r := Show(s, n);
    var c := CancelRestoreCrawl(s.(refsActive := false, visible := {}));
    assert !c.crawlStarted && !c.crawlTimeout && c.pending[RestoreCrawl] == 0;
    ClampFixesInRange(Clamp(n, s.page.screensCount), s.page.screensCount);
  }

  /** The document key handler preserves the invariant. */
  lemma KeyDownPreservesInv(s: State, key: string)
    requires Inv(s)
    ensures Inv(KeyDown(s, key))
  {
    match Dispatch(key, s.idx, s.page.hasInput, s.exitInput)
    case Ignore =>
    case Forward => ShowPreservesInv(s, s.idx + 1);
    case Back => ShowPreservesInv(s, s.idx - 1);
    case SaveAndForward => ShowPreservesInv(SaveExit(s), s.idx + 1);
  }

  /** The exit input's key handler preserves the invariant. */
  lemma InputKeyDownPreservesInv(s: State, key: string)
    requires Inv(s)
    ensures Inv(InputKeyDown(s, key))
  {
    var r := InputKeyDown(s, key);
    assert r.pending[RestoreCrawl] == s.pending[RestoreCrawl];
  }

  /** Button clicks preserve the invariant. */
  lemma ClickPreservesInv(s: State, b: Button)
    requires Inv(s)
    ensures Inv(Click(s, b))
  {
    match b
    case StartButton => ShowPreservesInv(s, s.idx + 1);
    case NextButton => ShowPreservesInv(s, s.idx + 1);
    case PrevButton => ShowPreservesInv(s, s.idx - 1);
    case HelpButton =>
    case EndGameButton => ShowPreservesInv(s, CrawlScreen);
  }

  /** Running any pending callback preserves the invariant. */
  lemma FirePreservesInv(s: State, t: Timer)
    requires Inv(s)
    ensures Inv(Fire(s, t))
  {
    if t in s.pending {
      var due := s.(pending := s.pending - multiset{t});
      assert Fire(s, t) == FireDue(due, t);
      match t
      case HideChrome => HideFiredPreservesInv(s, due);
      case RestoreCrawl => RestoreFiredPreservesInv(s, due);
      case DeferredNext => NextFiredPreservesInv(s, due);
    }
  }

  /** The chrome-hide callback keeps the invariant once its timer has left the queue. */
  lemma HideFiredPreservesInv(s: State, due: State)
    requires Inv(s) && HideChrome in s.pending && due == s.(pending := s.pending - multiset{HideChrome})
    ensures Inv(ChromeTimerFired(due))
  {
    assert due.pending[RestoreCrawl] == s.pending[RestoreCrawl];
  }

  /** The restore callback keeps the invariant once its timer has left the queue. */
  lemma RestoreFiredPreservesInv(s: State, due: State)
    requires Inv(s) && RestoreCrawl in s.pending && due == s.(pending := s.pending - multiset{RestoreCrawl})
    ensures Inv(RestoreRefs(due))
  {
    assert due.pending[RestoreCrawl] == 0;
  }

  /** The deferred `goNext` keeps the invariant once its timer has left the queue. */
  lemma NextFiredPreservesInv(s: State, due: State)
    requires Inv(s) && DeferredNext in s.pending && due == s.(pending := s.pending - multiset{DeferredNext})
    ensures Inv(GoNext(due))
  {
    assert due.pending[RestoreCrawl] == s.pending[RestoreCrawl];
    assert Inv(due);
    ShowPreservesInv(due, due.idx + 1);
  }

  /** Handling any single event preserves the invariant. */
  lemma StepPreservesInv(s: State, e: Event)
    requires Inv(s)
    ensures Inv(Step(s, e))
  {
    match e
    case KeyPress(k) => KeyDownPreservesInv(s, k);
    case InputKeyPress(k) => InputKeyDownPreservesInv(s, k);
    case Typed(text) =>
    case Press(b) => ClickPreservesInv(s, b);
    case TimerFires(t) => FirePreservesInv(s, t);
  }

  /**
    The page once the script has run: `show(0)` applied to the loaded page.
    Screen 0 is current, shown with synced controls if it exists, and no crawl,
    capture or timer exists yet.
   */
  function Boot(page: Page, refs: Html, wrapped: bool): (r: State)
    ensures Inv(r)
    ensures r.page == page && r.idx == 0
    ensures 0 in page.panels ==> r.visible == {0} && Synced(r)
    ensures 0 !in page.panels ==> r.visible == {}
    ensures r.screen10 == Resting(refs, wrapped)
    ensures !r.crawlStarted && !r.refsActive && r.originalRefsHtml == None && r.pending == multiset{}
  {
    ShowPreservesInv(Loaded(page, refs, wrapped), 0);
    Show(Loaded(page, refs, wrapped), 0)
  }

  /** Handling any sequence of events preserves the invariant. */
  lemma {:induction false} RunPreservesInv(s: State, events: seq<Event>)
    requires Inv(s)
    ensures Inv(Run(s, events))
    decreases |events|
  {
    if events != [] {
      StepPreservesInv(s, events[0]);
      RunPreservesInv(Step(s, events[0]), events[1..]);
    }
  }

  /** Every state of a session satisfies the invariant. */
  lemma SessionInv(page: Page, refs: Html, wrapped: bool, events: seq<Event>)
    ensures Inv(Run(Boot(page, refs, wrapped), events))
  {
    RunPreservesInv(Boot(page, refs, wrapped), events);
  }

  /**
    At no point of a session is more than one restore scheduled, and one is
    scheduled exactly while the crawl box is on screen.
   */
  lemma AtMostOneRestore(page: Page, refs: Html, wrapped: bool, events: seq<Event>)
    ensures var s := Run(Boot(page, refs, wrapped), events);
            s.pending[RestoreCrawl] <= 1 && (s.pending[RestoreCrawl] == 1 <==> BoxPresent(s))
  {
    SessionInv(page, refs, wrapped, events);
  }

  /**
    Leaving screen 10 while the crawl runs puts the references back at once
    and leaves no restore scheduled.
   */
  lemma LeavingCrawlRestores(s: State, n: int)
    requires Inv(s) && BoxPresent(s)
    requires Clamp(n, s.page.screensCount) != CrawlScreen
    ensures var r := Show(s, n);
            && r.screen10 == Resting(CapturedOrEmpty(s.originalRefsHtml), true)
            && !r.crawlStarted && !BoxPresent(r) && !r.crawlTimeout
            && r.pending[RestoreCrawl] == 0
  {
    ShowCrawlIff(s, n);
  }

  /** A restore callback that was cancelled, or has already run, cannot fire again. */
  lemma StaleRestoreIsHarmless(s: State)
    requires Inv(s) && !s.crawlStarted
    ensures Fire(s, RestoreCrawl) == s
  {
  }

  /** After a restore, showing screen 10 of an eleven-screen deck starts the crawl again. */
  lemma CrawlIsReplayable(s: State)
    requires Inv(s)
    requires s.page.screensCount == CrawlScreen + 1 && CrawlScreen in s.page.panels
    ensures Show(RestoreRefs(s), CrawlScreen).crawlStarted
    ensures BoxPresent(Show(RestoreRefs(s), CrawlScreen))
    ensures Captured(s.originalRefsHtml) ==>
              Show(RestoreRefs(s), CrawlScreen).screen10 == CrawlBox(s.originalRefsHtml.value)
  {
    assert Inv(RestoreRefs(s));
    ShowCrawlIff(RestoreRefs(s), CrawlScreen);
  }

  /** No event replaces references that have been captured. */
  lemma StepKeepsCapture(s: State, e: Event)
    requires Captured(s.originalRefsHtml)
    ensures Step(s, e).originalRefsHtml == s.originalRefsHtml
  {
  }

  /** Once captured, the references stay the same for the rest of the session. */
  lemma {:induction false} RunKeepsCapture(s: State, events: seq<Event>)
    requires Captured(s.originalRefsHtml)
    ensures Run(s, events).originalRefsHtml == s.originalRefsHtml
    decreases |events|
  {
    if events != [] {
      StepKeepsCapture(s, events[0]);
      RunKeepsCapture(Step(s, events[0]), events[1..]);
    }
  }

  /**
    Enter typed into the exit input on screen 8 reaches the input's handler
    and then the document's: the idea is saved and the input cleared, the
    document handler then sees a blank input and does nothing, so the screen
    changes only when the deferred `goNext` fires.
   */
  lemma EnterInExitInput(s: State)
    requires s.idx == InputScreen && s.page.hasInput && s.page.hasSaved
    requires !IsBlank(s.exitInput)
    ensures var r := KeyDown(InputKeyDown(s, "Enter"), "Enter");
            && r.idx == InputScreen
            && r.exitInput == ""
            && ParseConfirmation(r.savedMessage) == Some(Trim(s.exitInput))
            && r.pending[DeferredNext] == s.pending[DeferredNext] + 1
  {
    var t := InputKeyDown(s, "Enter");
    assert IsBlank(t.exitInput);
  }
}

=== FILE: support.dfy ===
/** Small value helpers shared by the model of the slideshow script. */
module Support {

  /** An optional value: stands for a variable that may still hold `null`. */
  datatype Option<+T> = None | Some(value: T)

  function Max(a: int, b: int): (m: int)
    ensures m >= a && m >= b && (m == a || m == b)
  {
    if a < b then b else a
  }

  function Min(a: int, b: int): (m: int)
    ensures m <= a && m <= b && (m == a || m == b)
  {
    if a < b then a else b
  }
}

=== FILE: text.dfy ===
/**
  The string handling of the exit-idea form: ECMAScript `String.prototype.trim`
  and the confirmation message shown once an idea is saved.
 */
module Text {
  import opened Support

  /** The ECMAScript WhiteSpace and LineTerminator code points, which `trim` removes. */
  predicate IsWhitespace(c: char)
  {
    || c == '\t' || c == '\n' || c == '\U{000B}' || c == '\U{000C}' || c == '\r'
    || c == ' ' || c == '\U{00A0}' || c == '\U{1680}'
    || ('\U{2000}' <= c <= '\U{200A}')
    || c == '\U{2028}' || c == '\U{2029}' || c == '\U{202F}' || c == '\U{205F}'
    || c == '\U{3000}' || c == '\U{FEFF}'
  }

  /** Every character of `s` is white space (vacuously so for the empty string). */
  predicate IsBlank(s: string)
  {
    forall i :: 0 <= i < |s| ==> IsWhitespace(s[i])
  }

  /** Number of white-space characters at the front of `s`. */
  function LeadingBlanks(s: string): (k: nat)
    ensures k <= |s|
    ensures forall i :: 0 <= i < k ==> IsWhitespace(s[i])
    ensures k < |s| ==> !IsWhitespace(s[k])
  {
    if |s| > 0 && IsWhitespace(s[0]) then 1 + LeadingBlanks(s[1..]) else 0
  }

  /** Number of white-space characters at the back of `s`. */
  function TrailingBlanks(s: string): (k: nat)
    ensures k <= |s|
    ensures forall i :: |s| - k <= i < |s| ==> IsWhitespace(s[i])
    ensures k < |s| ==> !IsWhitespace(s[|s| - 1 - k])
  {
    if |s| > 0 && IsWhitespace(s[|s| - 1]) then 1 + TrailingBlanks(s[..|s| - 1]) else 0
  }

  /**
    `s[a..b]` is what trimming `s` leaves: only white space lies outside it,
    and it neither starts nor ends with white space.
   */
  ghost predicate TrimmedAt(s: string, a: int, b: int)
  {
    && 0 <= a <= b <= |s|
    && (forall i :: 0 <= i < a ==> IsWhitespace(s[i]))
    && (forall i :: b <= i < |s| ==> IsWhitespace(s[i]))
    && (a < b ==> !IsWhitespace(s[a]) && !IsWhitespace(s[b - 1]))
  }

  /** `String.prototype.trim`: drops white space from both ends. */
  function Trim(s: string): (r: string)
    ensures exists a, b :: TrimmedAt(s, a, b) && r == s[a..b]
    ensures r == [] <==> IsBlank(s)
  {
    var a := LeadingBlanks(s);
    var rest := s[a..];
    var e := TrailingBlanks(rest);
    assert TrimmedAt(s, a, a + |rest| - e);
    rest[..|rest| - e]
  }

  /** The trimming description pins down a single slice. */
  lemma TrimmedAtUnique(s: string, a: int, b: int, a': int, b': int)
    requires TrimmedAt(s, a, b) && TrimmedAt(s, a', b')
    ensures s[a..b] == s[a'..b']
  {
    if a < b && a' < b' {
      assert a == a' && b == b';
    }
  }

  /** Any slice that meets the trimming description is the one `Trim` returns. */
  lemma TrimIsUnique(s: string, a: int, b: int)
    requires TrimmedAt(s, a, b)
    ensures Trim(s) == s[a..b]
  {
    var a', b' :| TrimmedAt(s, a', b') && Trim(s) == s[a'..b'];
    TrimmedAtUnique(s, a, b, a', b');
  }

  /** Trimming twice is trimming once. */
  lemma TrimIdempotent(s: string)
    ensures Trim(Trim(s)) == Trim(s)
  {
    var r := Trim(s);
    var a, b :| TrimmedAt(s, a, b) && r == s[a..b];
    assert TrimmedAt(r, 0, |r|);
    TrimIsUnique(r, 0, |r|);
  }

  /** Text placed before the idea in the confirmation message. */
  const ConfirmationHead := "Idea guardada: \""

  /** Text placed after the idea in the confirmation message (with an em dash). */
  const ConfirmationTail := "\" \U{2014} gracias."

  /** The message shown once the idea `idea` has been saved. */
  function Confirmation(idea: string): (m: string)
    ensures |m| == |ConfirmationHead| + |idea| + |ConfirmationTail|
    ensures m[|ConfirmationHead|..|ConfirmationHead| + |idea|] == idea
  {
    ConfirmationHead + idea + ConfirmationTail
  }

  /** Recovers the idea from a confirmation message, or `None` if `m` is not one. */
  function ParseConfirmation(m: string): (idea: Option<string>)
    ensures idea.Some? ==> |idea.value| + |ConfirmationHead| + |ConfirmationTail| == |m|
  {
    if |m| >= |ConfirmationHead| + |ConfirmationTail|
       && m[..|ConfirmationHead|] == ConfirmationHead
       && m[|m| - |ConfirmationTail|..] == ConfirmationTail
    then Some(m[|ConfirmationHead|..|m| - |ConfirmationTail|])
    else None
  }

  /** The saved idea can be read back verbatim from its confirmation message. */
  lemma ParseConfirmationRoundTrip(idea: string)
    ensures ParseConfirmation(Confirmation(idea)) == Some(idea)
  {
    var m := Confirmation(idea);
    assert m[..|ConfirmationHead|] == ConfirmationHead;
    assert m[|m| - |ConfirmationTail|..] == ConfirmationTail;
  }

  /** Every message the parser accepts is the confirmation of what it extracts. */
  lemma ParseConfirmationSound(m: string, idea: string)
    requires ParseConfirmation(m) == Some(idea)
    ensures Confirmation(idea) == m
  {
    var h, t := |ConfirmationHead|, |m| - |ConfirmationTail|;
    assert m == m[..h] + m[h..t] + m[t..];
  }
}
